=== FILE: README.md ===
# Broken-link checker extension: a Dafny model of its link bookkeeping

The extension scans a page's anchors, asks its background script to probe each
target with a HEAD request, paints each link by the verdict, and lets the popup
read per-status counts and URL lists, highlight one link, and export a CSV.

This project models the two pieces of sequential logic behind that:

- **The background `checkLink` handler** (`background.js`, module `Prober`). It
  validates the URL. It then turns the probe outcome (`Failed`, or a response
  with `redirected` and `status`) into exactly one reply. The reply carries one
  of seven `linkStatusType` values and an `isBroken` flag.
- **The page script's state machine** (`content.js`). Its state is an immutable
  record `Page.PageState` holding:
  - the id counter;
  - the registry of links awaiting a reply;
  - the six counters and six URL lists;
  - the `checkLink` requests sent so far;
  - the colours painted on links;
  - the highlighted element and its outline.

  Its operations are pure functions over that record:
  - `processLink` (`Scanner`);
  - the reply branch of the message listener and the `getStatusCounts` query
    (`Aggregator`, `Listener`);
  - `highlightLinkOnPage` and `clearHighlight` (`Annotator`);
  - `generateCSV` (`Export`).

The remaining modules support these:

- `Status` holds the shared vocabulary: kinds, buckets, wire names and colours.
- `Tally` is the six-field shape of `statusCounts` / `statusUrls`.
- `Decimal` renders counters the way a template literal does.
- `Url` makes the URL parser a parameter (`Parser`): a partial function from a
  string to a protocol and a normalised `href`.
- `System` composes both scripts. Links are scanned, and replies to any sent
  request arrive in any order, any number of times. It proves that the
  invariants hold along every such run. Under an explicit assumption about the
  parser (`Url.ReparseKeepsProtocol`: re-parsing a normalised `href` keeps its
  protocol), it also proves that the page never receives `invalid_url` for a
  request it sent itself.

`Page.Inv` is the invariant every operation keeps:

- each count equals the length of its list;
- every registered id and every sent id was issued by the counter;
- sent ids are pairwise distinct;
- every registered id was sent;
- counted replies plus pending registrations equal the number of requests sent;
- exactly the highlighted element carries an outline.

Three behaviours of the code that the model keeps as written:

- **A redirect wins over every status.** `response.redirected` is tested first
  (background.js:37), so a redirected response is `redirect` whatever its
  status, 0 included (`Prober.Classify`).
- **Counts versus scanned links.** Counts alone equal the accepted scans only
  when no probe is pending. In general, counts plus pending registrations do
  (`System.RunKeepsInvAndAccounts`).
- **Rejected links still use up an id.** The counter advances for a rejected
  link too, because the id is taken (content.js:31) before validation
  (content.js:40-53).

## Model

| member | source | states |
|---|---|---|
| Decimal.NatToString | content.js:31 | A counter renders as a non-empty string of decimal digits with no leading zero; numbers from 10 up take at least two digits |
| Decimal.DecimalRoundTrip | content.js:31 | Reading back the decimal rendering of the counter gives the counter, so the rendering loses nothing |
| Decimal.NatToStringInjective | content.js:31 | Distinct counter values render as distinct decimal strings |
| Page.LinkId | content.js:31 | The identifier of the N-th processed link is `link-` followed only by digits, with no leading zero, that read back as N |
| Page.LinkIdInjective | content.js:31 | Distinct counter values give distinct `link-N` identifiers |
| Page.NextIdIsFresh | content.js:31 | An identifier issued earlier is never the one the counter hands out next |
| Page.InitialInv | content.js:4-24 | The page-load state satisfies the invariant: zero counts, empty lists, empty registry |
| Url.Validate | content.js:40-42 | A normalised URL is produced exactly when the href parses with protocol `http:` or `https:`, and it is the parsed `href` |
| Url.ValidatedIsAccepted | content.js:40-42 | Under the re-parse assumption, a URL the page validated is accepted again by the same check |
| Scanner.ProcessLink | content.js:27-61 | Every call advances the counter by one. The request log grows by one exactly when the href is accepted, and is otherwise unchanged. Counts, lists and styling are untouched |
| Scanner.RejectedLinkChangesNothing | content.js:39-54 | For an unparsable or non-http(s) href the registry ends as it started and no request is sent; only the counter moves |
| Scanner.AcceptedLinkRegistersAndSends | content.js:31-60 | For an accepted href the registry gains exactly the fresh id, mapped to the element, and other entries are kept. Exactly one `checkLink{normalised href, id}` is appended. Its id differs from every earlier request's id |
| Scanner.ProcessLinkPreservesInv | content.js:27-61 | `processLink` keeps the page invariant, including fresh and distinct ids and the accounting |
| Status.BucketOfType | content.js:98-135 | A received type string never lands in a bucket other than the one it names, except that `broken_inferred` lands in broken; anything else lands in unknown |
| Status.TypeSwitchBuckets | content.js:98-135 | `broken` and `broken_inferred` go to the broken bucket. Any string other than the six listed names goes to unknown. The other four names go to their own bucket |
| Status.KindLandsInBucket | content.js:105-106 | A prober kind lands in the broken bucket exactly when it is `broken` or `broken_inferred`; every other kind lands in the bucket of its own name |
| Status.BucketNameRoundTrip | content.js:98-135 | Each bucket's key, sent as a type string, is counted in that same bucket |
| Status.HighlightColor | content.js:203-212 | The highlight colour of a bucket's name is the colour the reply handler paints that bucket's links; a non-gray colour is given only to a bucket name |
| Status.AnnotationColor | content.js:98-135 | Links are painted green exactly for ok, orange exactly for redirect, red exactly for broken, network_error and invalid_url, and gray exactly for unknown |
| Status.HighlightDefaultsToGray | content.js:212 | A status name missing from the colour table is highlighted gray |
| Status.HighlightMatchesAnnotation | content.js:203-210 | For every bucket, the highlight colour of its name equals the colour the reply handler paints its links |
| Status.AllBucketsIndexed | content.js:17-24 | The buckets' key order lists each bucket once, at its own position |
| Tally.TotalOfMatchingCounts | content.js:8-24 | When each count equals its list's length, the six counts add up to the number of stored URLs |
| Tally.TallyExtensional | content.js:8-24 | Two count or list records that agree on every bucket are equal |
| Aggregator.ApplyReply | content.js:94-138 | A reply with a registered, non-empty id does four things: its bucket's count goes up by one; its URL is appended at the end of that bucket's list; the other five buckets are untouched; the id leaves the registry while every other pending id keeps its element, and the link gets the bucket's colour. A missing, empty or unknown id changes nothing |
| Aggregator.ReplyAppliedAtMostOnce | content.js:94-138 | Once a reply is applied, a reply with the same id has no effect, whatever it carries |
| Aggregator.RepliesCommute | content.js:94-138 | Replies for different ids leave the same registry and the same six counts in either arrival order |
| Aggregator.ApplyReplyPreservesInv | content.js:94-138 | The reply branch keeps the page invariant, including count = list length for all six kinds |
| Annotator.FirstMatch | content.js:215-224 | Finds the first anchor whose `href` equals the URL exactly. It reports none only when no anchor matches |
| Annotator.ClearHighlight | content.js:228-234 | Afterwards nothing is highlighted. Only the previously highlighted element loses its outline; everything else is unchanged |
| Annotator.HighlightLinkOnPage | content.js:198-225 | An element is highlighted exactly when some anchor's `href` equals the URL. It is the first such anchor, outlined in the status's colour. Registry, counts and lists are unchanged |
| Annotator.ClearLeavesNothingHighlighted | content.js:228-234 | After clearing, no element carries an outline, and clearing again changes nothing |
| Annotator.HighlightReplacesPrevious | content.js:198-225 | After a highlight, exactly the highlighted element is outlined, and a previously highlighted different element has lost its outline |
| Annotator.ClearPreservesInv | content.js:228-234 | Clearing keeps the page invariant |
| Annotator.HighlightPreservesInv | content.js:198-225 | Highlighting keeps the page invariant, so at most one element is ever highlighted |
| Export.GenerateCsv | content.js:184-195 | The exported document begins with the fixed header line |
| Export.Row | content.js:190 | A row opens with the quoted page address followed by the opening quote of the URL field, and ends with a line break |
| Export.RowFields | content.js:190 | Between the quoted page address and the quoted status name, a row holds the entry's URL unchanged. The status field is the bucket's name. The row ends with the six totals in the order ok, redirect, broken, network_error, invalid_url, unknown, then a line break |
| Export.RowAt | content.js:188-191 | In text made of any prefix followed by the rows of a list of entries, the row of entry i sits right after the prefix and the rows of the entries before it |
| Export.ExportRowAt | content.js:188-191 | In the exported document, each stored URL's row appears in full, right after the header and the rows of the URLs exported before it |
| Export.BuildCsv | content.js:184-195 | The nested loop over buckets and their URLs builds exactly the export document |
| Export.AppendBucketRows | content.js:189-191 | The inner loop appends one row per URL of one bucket's list, in list order |
| Export.ExportKeepsEachList | content.js:188-192 | The URLs exported under each bucket are exactly that bucket's list, in arrival order |
| Export.ExportOrderAndSize | content.js:188-192 | Rows are grouped by bucket in the order ok, redirect, broken, network_error, invalid_url, unknown, with one row per stored URL |
| Export.ExportStartsWithHeader | content.js:185 | The export starts with the fixed header line, and with no stored URL it is that header alone |
| Export.RowIsOneLine | content.js:190 | A row is exactly one line when the page address and the URL contain no line break |
| Export.ExportLineCount | content.js:185-191 | After the header there is exactly one line per stored URL, which under the invariant is one per counted reply |
| Listener.OnMessage | content.js:67-140 | `getStatusCounts` returns the counts and lists and changes nothing. `exportData` returns the CSV and the page address and changes nothing. Highlight, clear and probe replies send no response |
| Listener.StatusQueryIsStable | content.js:69-72 | Two status queries in a row give identical answers and leave the state as it was. Each answered count equals its list's length |
| Listener.OnMessagePreservesInv | content.js:67-140 | Every message the page script handles keeps the page invariant |
| Prober.Handle | background.js:4-66 | The single reply to a `checkLink` request echoes its url and id. It is `invalid_url` exactly when the URL is rejected, and is then the rejection reply whatever the network does. For an accepted URL it is the completion of the HEAD fetch |
| Prober.Classify | background.js:36-45 | `redirect` exactly when redirected. `broken` exactly when not redirected and status ≥ 400. `ok` exactly when not redirected and status 200. `broken_inferred` exactly when not redirected and status 0. `unknown` exactly for the remaining statuses |
| Prober.InvalidReply | background.js:13-29 | The rejection reply echoes url and id, has kind `invalid_url`, status 0, `isBroken` true and no `redirected` |
| Prober.DispatchRequest | background.js:10-34 | A fetch of the request's URL is made exactly when the URL parses with an http(s) protocol. Otherwise the answer is the `invalid_url` reply echoing the request's url and id |
| Prober.Complete | background.js:35-63 | A rejected fetch gives `network_error` with status 0 and `isBroken` true. A completed fetch gives the classified kind, its status and `redirected`, with `isBroken` exactly for `broken`/`broken_inferred`. Both echo url and id |
| Prober.ReplyEchoesRequest | background.js:13-63 | Every reply echoes the request's `url` and `linkId` |
| Prober.InvalidUrlExactlyWhenRejected | background.js:10-31 | The reply is `invalid_url` exactly when the URL is rejected. A rejected URL gets the same reply whatever the network would do, since no fetch is made |
| Prober.BrokenFlagMatchesRed | background.js:53 | `isBroken` holds exactly for replies the page paints red |
| System.Step | content.js:27-138 | A scan advances the counter by one and sends one request exactly when its href is accepted. A reply arrival sends nothing and leaves the counter alone. The request log only grows |
| System.DeliverIsListenerReply | content.js:67-140 | A background reply delivered to the page has exactly the effect of the listener's reply branch, and the listener sends no response to it |
| System.StepPreservesInv | content.js:94-138 | Any scan or reply arrival, in any order, keeps the page invariant |
| System.SettleTwiceIsSettleOnce | content.js:94-138 | Delivering the reply to the same request twice has the effect of delivering it once, even if the two replies differ |
| System.RunKeepsInvAndAccounts | content.js:27-138 | From page load, along any sequence of scans and replies, the invariant holds. The requests sent number the accepted scans, and counts plus pending registrations equal the accepted scans |
| System.ScanKeepsNoInvalidUrls | content.js:40-42 | Under the re-parse assumption, every request the page sends carries a URL the background handler accepts |
| System.SettleKeepsNoInvalidUrls | background.js:10-31 | A reply to one of the page's own requests never lands in the `invalid_url` bucket |
| System.InvalidUrlBucketStaysEmpty | background.js:10-31 | Under the re-parse assumption, along any run from page load, the `invalid_url` count stays 0 and its list stays empty |

## Left out

- The HEAD `fetch` and the network (background.js:34) are not modelled. The outcome is an input (`Prober.Outcome`), and each request may receive any outcome.
- The WHATWG URL parser is not modelled. It is the parameter `Url.Parser`. The composed results assume `Url.ReparseKeepsProtocol` explicitly.
- DOM traversal is not modelled: `findAndProcessLinks`, `querySelectorAll`, the `MutationObserver`, and the load/unload listeners. A scan is an event carrying an element handle and its href. For highlighting, the document's anchors are a sequence in document order.
- The `extensionEnabled` storage flag is not modelled. It only decides whether scanning starts, which is browser plumbing.
- Styling is reduced to colours. The model keeps text colour as an enum per element handle, plus the highlighted element and its outline colour. The `title` strings, `outline-offset` and `scrollIntoView` are side effects with no bearing on the bookkeeping. The numeric `status` field of a reply is carried but used only in those titles.
- The popup's port disconnect (content.js:237-243) only calls `clearHighlight`, which is modelled.
- Chrome messaging (`chrome.runtime`, `chrome.tabs`) is not modelled. Sent requests are a log in the page state. Replies are delivered by `System.Step` to any logged request, in any order and any number of times. Concurrency needs nothing more.
- popup.js is left out: rendering, polling, change detection and the Blob download.
- Console logging is left out.
- HTTP status codes are unbounded integers. The classifier is stated for every integer.
- Status.HighlightDefaultsToGray: the model gives gray for every name outside the colour table. In JavaScript, `statusColors[status]` for an inherited property name such as `constructor` is truthy and is not a colour. The popup only sends bucket names, so this is not modelled.
- Status.HighlightColor: the model gives gray for every name outside the colour table. In JavaScript, `statusColors[status]` for an inherited property name such as `constructor` is truthy and is not a colour. The popup only sends bucket names, so this is not modelled.
- Export.ExportLineCount: the line count assumes the page address and the stored URLs contain no line break. Normalised URLs never do, but the parser is abstract here.
- Scanner.ProcessLink: the id counter is an unbounded natural. In the code `linkIdCounter` is a JavaScript number, so once it reaches 2^53 `linkIdCounter++` leaves it unchanged and `link-9007199254740992` would be issued again. Freshness (`Page.NextIdIsFresh`, `Page.DistinctIds`) holds only below that bound. The `statusCounts` counters (content.js:102-133) are likewise unbounded here.
- Status.BucketOfType: the contract states only where a string may land. That each bucket name lands in its own bucket is `Status.BucketNameRoundTrip`, and the full case split is `Status.TypeSwitchBuckets`.

=== FILE: aggregator.dfy ===
/** The reply branch of the page script's message listener: a reply for a
    registered identifier is counted once in one bucket, then forgotten. */
module Aggregator {
  import opened Options
  import opened Status
  import opened Tally
  import opened Page

  /** `request.linkId && linkElements.has(request.linkId)`: a missing or empty
      identifier is falsy and is dropped like an unknown one. */
  predicate Resolves(st: PageState, linkId: Option<string>) {
    linkId.Some? && linkId.value != "" && linkId.value in st.registry
  }

  /** Applies one probe reply `{url, linkId, linkStatusType}` to the page. */
  function ApplyReply(st: PageState, linkId: Option<string>, url: string, linkStatusType: string): (r: PageState)
    ensures !Resolves(st, linkId) ==> r == st
    ensures Resolves(st, linkId) ==>
      var b := BucketOfType(linkStatusType);
      && r.registry == st.registry - {linkId.value}
      && r.counts.Get(b) == st.counts.Get(b) + 1
      && r.urls.Get(b) == st.urls.Get(b) + [url]
      && (forall c :: c != b ==> r.counts.Get(c) == st.counts.Get(c) && r.urls.Get(c) == st.urls.Get(c))
      && r.colors == st.colors[st.registry[linkId.value] := AnnotationColor(b)]
    ensures r.nextId == st.nextId && r.outbox == st.outbox
    ensures r.highlighted == st.highlighted && r.outlines == st.outlines
  {
    if Resolves(st, linkId) then
      var id := linkId.value;
      var b := BucketOfType(linkStatusType);
      st.(counts := st.counts.Set(b, st.counts.Get(b) + 1),
          urls := st.urls.Set(b, st.urls.Get(b) + [url]),
          colors := st.colors[st.registry[id] := AnnotationColor(b)],
          registry := st.registry - {id})
    else
      st
  }

  /** A reply is applied at most once: once it has been applied, the same
      identifier has no further effect, whatever the replayed reply carries. */
  lemma ReplyAppliedAtMostOnce(st: PageState, linkId: Option<string>, url: string, t: string,
                               url': string, t': string)
    ensures var once := ApplyReply(st, linkId, url, t);
      ApplyReply(once, linkId, url', t') == once
  {
  }

  /** Replies for different identifiers may arrive in either order: the registry
      and the six counters end the same. */
  lemma RepliesCommute(st: PageState, a: string, ua: string, ta: string, b: string, ub: string, tb: string)
    requires a != b
    ensures ApplyReply(ApplyReply(st, Some(a), ua, ta), Some(b), ub, tb).registry ==
            ApplyReply(ApplyReply(st, Some(b), ub, tb), Some(a), ua, ta).registry
    ensures ApplyReply(ApplyReply(st, Some(a), ua, ta), Some(b), ub, tb).counts ==
            ApplyReply(ApplyReply(st, Some(b), ub, tb), Some(a), ua, ta).counts
  {
    var sa := ApplyReply(st, Some(a), ua, ta);
    var sb := ApplyReply(st, Some(b), ub, tb);
    var ab := ApplyReply(sa, Some(b), ub, tb);
    var ba := ApplyReply(sb, Some(a), ua, ta);
    assert Resolves(sa, Some(b)) == Resolves(st, Some(b));
    assert Resolves(sb, Some(a)) == Resolves(st, Some(a));
    assert ab.registry == ba.registry by {
      assert ab.registry.Keys == ba.registry.Keys;
    }
    forall c
      ensures ab.counts.Get(c) == ba.counts.Get(c)
    {
    }
    TallyExtensional(ab.counts, ba.counts);
  }

  /** Counting one URL in bucket `b` keeps each count equal to its list's length. */
  lemma RecordKeepsCountsMatch(counts: Tally<nat>, urls: Tally<seq<string>>, b: Bucket, url: string)
    requires CountsMatch(counts, urls)
    ensures CountsMatch(counts.Set(b, counts.Get(b) + 1), urls.Set(b, urls.Get(b) + [url]))
  {
    var counts' := counts.Set(b, counts.Get(b) + 1);
    var urls' := urls.Set(b, urls.Get(b) + [url]);
    forall c
      ensures counts'.Get(c) == |urls'.Get(c)|
    {
    }
  }

  /** Forgetting one registered id keeps every registry fact the invariant asks for. */
  lemma ForgetKeepsRegistry(st: PageState, id: string)
    requires id in st.registry
    requires forall x :: x in st.registry ==> Issued(x, st.nextId) && Sent(x, st.outbox)
    ensures forall x :: x in st.registry - {id} ==> Issued(x, st.nextId) && Sent(x, st.outbox)
    ensures |st.registry - {id}| == |st.registry| - 1
  {
    assert (st.registry - {id}).Keys == st.registry.Keys - {id};
  }

  lemma ApplyReplyPreservesInv(st: PageState, linkId: Option<string>, url: string, t: string)
    requires Inv(st)
    ensures Inv(ApplyReply(st, linkId, url, t))
  {
    if Resolves(st, linkId) {
      var id := linkId.value;
      var b := BucketOfType(t);
      var r := ApplyReply(st, linkId, url, t);
      assert r == st.(counts := st.counts.Set(b, st.counts.Get(b) + 1),
                      urls := st.urls.Set(b, st.urls.Get(b) + [url]),
                      colors := st.colors[st.registry[id] := AnnotationColor(b)],
                      registry := st.registry - {id});
      RecordKeepsCountsMatch(st.counts, st.urls, b, url);
      ForgetKeepsRegistry(st, id);
      TotalAfterIncrement(st.counts, b);
    }
  }
}

=== FILE: annotator.dfy ===
/** `highlightLinkOnPage` and `clearHighlight`: at most one element of the page
    carries the dashed outline, and a new highlight first removes the old one. */
module Annotator {
  import opened Options
  import opened Status
  import opened Page

  /** An `a[href]` element of the document, with its resolved `href`, in document order. */
  datatype Anchor = Anchor(element: Element, href: string)

  /** Index of the first anchor whose `href` equals `url` exactly. */
  function FirstMatch(anchors: seq<Anchor>, url: string): (r: Option<nat>)
    ensures r.Some? ==> r.value < |anchors| && anchors[r.value].href == url
    ensures r.Some? ==> forall j :: 0 <= j < r.value ==> anchors[j].href != url
    ensures r.None? ==> forall j :: 0 <= j < |anchors| ==> anchors[j].href != url
    decreases |anchors|
  {
    if |anchors| == 0 then None
    else if anchors[0].href == url then Some(0)
    else
      match FirstMatch(anchors[1..], url)
      case None => None
      case Some(i) => Some(i + 1)
  }

  /** Removes the outline from the highlighted element, if there is one. */
  function ClearHighlight(st: PageState): (r: PageState)
    ensures r.highlighted.None?
    ensures r.outlines.Keys == st.outlines.Keys - HighlightSet(st.highlighted)
    ensures forall x :: x in r.outlines ==> r.outlines[x] == st.outlines[x]
    ensures r.nextId == st.nextId && r.registry == st.registry && r.outbox == st.outbox
    ensures r.counts == st.counts && r.urls == st.urls && r.colors == st.colors
  {
    match st.highlighted
    case None => st
    case Some(e) => st.(outlines := st.outlines - {e}, highlighted := None)
  }

  /** Clears any previous highlight, then outlines the first anchor whose `href`
      is `url` in the colour of `status` (gray for a name the table lacks). */
  function HighlightLinkOnPage(st: PageState, anchors: seq<Anchor>, url: string, status: string): (r: PageState)
    ensures r.highlighted.Some? <==> exists j :: 0 <= j < |anchors| && anchors[j].href == url
    ensures r.highlighted.Some? ==>
      (exists j :: 0 <= j < |anchors| && anchors[j].href == url &&
        r.highlighted.value == anchors[j].element &&
        (forall i :: 0 <= i < j ==> anchors[i].href != url))
    ensures r.highlighted.Some? ==>
      r.highlighted.value in r.outlines && r.outlines[r.highlighted.value] == HighlightColor(status)
    ensures r.nextId == st.nextId && r.registry == st.registry && r.outbox == st.outbox
    ensures r.counts == st.counts && r.urls == st.urls && r.colors == st.colors
  {
    var cleared := ClearHighlight(st);
    match FirstMatch(anchors, url)
    case None => cleared
    case Some(i) =>
      var e := anchors[i].element;
      cleared.(highlighted := Some(e), outlines := cleared.outlines[e := HighlightColor(status)])
  }

  /** After clearing, no element is outlined; clearing again changes nothing. */
  lemma ClearLeavesNothingHighlighted(st: PageState)
    requires Inv(st)
    ensures ClearHighlight(st).outlines == map[]
    ensures ClearHighlight(ClearHighlight(st)) == ClearHighlight(st)
  {
    assert ClearHighlight(st).outlines.Keys == {};
  }

  /** After a highlight exactly the chosen element is outlined: whatever was
      outlined before has lost its outline unless it is the same element. */
  lemma HighlightReplacesPrevious(st: PageState, anchors: seq<Anchor>, url: string, status: string)
    requires Inv(st)
    ensures var r := HighlightLinkOnPage(st, anchors, url, status);
      r.outlines.Keys == HighlightSet(r.highlighted)
    ensures var r := HighlightLinkOnPage(st, anchors, url, status);
      st.highlighted.Some? && r.highlighted != st.highlighted ==> st.highlighted.value !in r.outlines
  {
  }

  lemma ClearPreservesInv(st: PageState)
    requires Inv(st)
    ensures Inv(ClearHighlight(st))
  {
  }

  lemma HighlightPreservesInv(st: PageState, anchors: seq<Anchor>, url: string, status: string)
    requires Inv(st)
    ensures Inv(HighlightLinkOnPage(st, anchors, url, status))
  {
    HighlightReplacesPrevious(st, anchors, url, status);
  }
}

=== FILE: decimal.dfy ===
/** Decimal rendering of non-negative integers, as a JavaScript template literal
    renders a counter (`${n}`): used for the `link-N` identifiers and the CSV totals. */
module Decimal {

  predicate IsDigit(c: char) {
    '0' <= c <= '9'
  }

  function DigitChar(d: nat): (c: char)
    requires d < 10
    ensures IsDigit(c)
  {
    ('0' as int + d) as char
  }

  /** Value of one digit character; anything else reads as zero. */
  function DigitValue(c: char): (d: nat)
    ensures d < 10
  {
    if IsDigit(c) then c as int - '0' as int else 0
  }

  /** Shortest decimal rendering of `n`, most significant digit first. */
  function NatToString(n: nat): (s: string)
    ensures 1 <= |s|
    ensures n >= 10 ==> 2 <= |s|
    ensures n > 0 ==> s[0] != '0'
    ensures forall i :: 0 <= i < |s| ==> IsDigit(s[i])
    decreases n
  {
    if n < 10 then [DigitChar(n)] else NatToString(n / 10) + [DigitChar(n % 10)]
  }

  /** Reads a string of decimal digits back as a number. */
  function DecimalValue(s: string): nat
    decreases |s|
  {
    if |s| == 0 then 0 else DecimalValue(s[..|s| - 1]) * 10 + DigitValue(s[|s| - 1])
  }

  /** Reading back a rendered number gives the number. */
  lemma {:induction false} DecimalRoundTrip(n: nat)
    ensures DecimalValue(NatToString(n)) == n
    decreases n
  {
    var s := NatToString(n);
    if n < 10 {
      assert s[..|s| - 1] == [];
    } else {
      assert s[..|s| - 1] == NatToString(n / 10);
      DecimalRoundTrip(n / 10);
    }
  }

  /** Distinct numbers render as distinct strings. */
  lemma NatToStringInjective(a: nat, b: nat)
    requires a != b
    ensures NatToString(a) != NatToString(b)
  {
    DecimalRoundTrip(a);
    DecimalRoundTrip(b);
  }
}

=== FILE: export.dfy ===
/** `generateCSV`: a header line, then one row per stored URL, bucket by bucket in
    the key order of `statusUrls` and in arrival order within a bucket, each row
    repeating the page's six current totals. */
module Export {
  import opened Decimal
  import opened Status
  import opened Tally
  import opened Page

  const Header: string :=
    "Page URL,Link URL,Status,OK Count,Redirect Count,Broken Count,Network Error Count,Invalid URL Count,Unknown Count\n"

  /** One stored URL together with the bucket it is listed under. */
  datatype Entry = Entry(bucket: Bucket, url: string)

  /** The six totals as a row renders them, comma separated. */
  function TotalsText(counts: Tally<nat>): string {
    NatToString(counts.ok) + "," + NatToString(counts.redirect) + "," + NatToString(counts.broken) + "," +
    NatToString(counts.networkError) + "," + NatToString(counts.invalidUrl) + "," + NatToString(counts.unknown)
  }

  /** `"page","url","status",ok,redirect,broken,network_error,invalid_url,unknown` and a newline. */
  function Row(page: string, e: Entry, counts: Tally<nat>): (row: string)
    ensures "\"" + page + "\",\"" <= row
    ensures row[|row| - 1] == '\n'
  {
    "\"" + page + "\",\"" + e.url + "\",\"" + BucketName(e.bucket) + "\"," + TotalsText(counts) + "\n"
  }

  /** Where the four parts of `a + b + c + d` sit. */
  lemma PartsOfFour(a: string, b: string, c: string, d: string)
    ensures var w := a + b + c + d;
      && |w| == |a| + |b| + |c| + |d|
      && w[|a|..|a| + |b|] == b
      && w[|a| + |b|..|a| + |b| + |c|] == c
      && w[|w| - |d|..] == d
  {
    var w := a + b + c + d;
    assert w == (a + b) + (c + d);
    assert w == (a + b + c) + d;
    assert (a + b)[|a|..] == b;
    assert (a + b + c)[|a| + |b|..] == c;
  }

  /** The fields of a row: after the quoted page address comes the entry's URL,
      then its quoted status name, then the six totals and a line break. */
  lemma RowFields(page: string, e: Entry, counts: Tally<nat>)
    ensures var row := Row(page, e, counts);
      var name := BucketName(e.bucket);
      var u := |page| + 4;
      var s := u + |e.url|;
      && |row| == |page| + |e.url| + |name| + |TotalsText(counts)| + 10
      && row[u..s] == e.url
      && row[s..s + |name| + 5] == "\",\"" + name + "\","
      && row[|row| - |TotalsText(counts)| - 1..] == TotalsText(counts) + "\n"
  {
    var head := "\"" + page + "\",\"";
    var mid := "\",\"" + BucketName(e.bucket) + "\",";
    var tail := TotalsText(counts) + "\n";
    assert |head| == |page| + 4;
    assert |mid| == |BucketName(e.bucket)| + 5;
    assert |tail| == |TotalsText(counts)| + 1;
    assert Row(page, e, counts) == head + e.url + mid + tail;
    PartsOfFour(head, e.url, mid, tail);
  }

  /** The URLs of one list, tagged with their bucket. */
  function BucketEntries(b: Bucket, us: seq<string>): (es: seq<Entry>)
    ensures |es| == |us|
    ensures forall i :: 0 <= i < |es| ==> es[i] == Entry(b, us[i])
  {
    seq(|us|, i requires 0 <= i < |us| => Entry(b, us[i]))
  }

  /** All entries of the lists of buckets `bs`, list after list. */
  function EntriesOf(bs: seq<Bucket>, urls: Tally<seq<string>>): seq<Entry>
    decreases |bs|
  {
    if |bs| == 0 then []
    else EntriesOf(bs[..|bs| - 1], urls) + BucketEntries(bs[|bs| - 1], urls.Get(bs[|bs| - 1]))
  }

  /** Every stored URL of the page, in export order. */
  function Entries(urls: Tally<seq<string>>): seq<Entry> {
    EntriesOf(AllBuckets, urls)
  }

  function RowsText(page: string, es: seq<Entry>, counts: Tally<nat>): string
    decreases |es|
  {
    if |es| == 0 then "" else RowsText(page, es[..|es| - 1], counts) + Row(page, es[|es| - 1], counts)
  }

  /** The exported document for page address `page`. */
  function GenerateCsv(st: PageState, page: string): (csv: string)
    ensures Header <= csv
  {
    Header + RowsText(page, Entries(st.urls), st.counts)
  }

  lemma RowsTextSnoc(page: string, es: seq<Entry>, e: Entry, counts: Tally<nat>)
    ensures RowsText(page, es + [e], counts) == RowsText(page, es, counts) + Row(page, e, counts)
  {
    assert (es + [e])[..|es|] == es;
  }

  /** Appending a row to the text built so far; a lemma of its own so that the
      loop body needs no sequence extensionality. */
  lemma AppendAssoc(a: string, b: string, c: string)
    ensures (a + b) + c == a + (b + c)
  {
  }

  lemma BucketEntriesSnoc(b: Bucket, us: seq<string>, j: nat)
    requires j < |us|
    ensures BucketEntries(b, us[..j + 1]) == BucketEntries(b, us[..j]) + [Entry(b, us[j])]
  {
  }

  lemma EntriesOfSnoc(i: nat, urls: Tally<seq<string>>)
    requires i < |AllBuckets|
    ensures EntriesOf(AllBuckets[..i + 1], urls) ==
      EntriesOf(AllBuckets[..i], urls) + BucketEntries(AllBuckets[i], urls.Get(AllBuckets[i]))
  {
    assert AllBuckets[..i + 1][..i] == AllBuckets[..i];
  }

  /** The export as the script builds it: one pass over the buckets in key order,
      appending the rows of each bucket's list. */
  method BuildCsv(st: PageState, page: string) returns (csv: string)
    ensures csv == GenerateCsv(st, page)
  {
    csv := Header;
    var i := 0;
    while i < |AllBuckets|
      invariant 0 <= i <= |AllBuckets|
      invariant csv == Header + RowsText(page, EntriesOf(AllBuckets[..i], st.urls), st.counts)
    {
      var b := AllBuckets[i];
      csv := AppendBucketRows(csv, Header, page, EntriesOf(AllBuckets[..i], st.urls), b, st.urls.Get(b), st.counts);
      EntriesOfSnoc(i, st.urls);
      i := i + 1;
    }
    assert AllBuckets[..|AllBuckets|] == AllBuckets;
  }

  /** One turn of the inner pass: the row of `us[j]` extends the text so far. */
  lemma AppendBucketRowStep(head: string, page: string, done: seq<Entry>, b: Bucket, us: seq<string>,
                            j: nat, counts: Tally<nat>)
    requires j < |us|
    ensures head + RowsText(page, done + BucketEntries(b, us[..j + 1]), counts) ==
      (head + RowsText(page, done + BucketEntries(b, us[..j]), counts)) + Row(page, Entry(b, us[j]), counts)
  {
    var e := Entry(b, us[j]);
    var before := done + BucketEntries(b, us[..j]);
    BucketEntriesSnoc(b, us, j);
    assert done + BucketEntries(b, us[..j + 1]) == before + [e];
    RowsTextSnoc(page, before, e, counts);
    AppendAssoc(head, RowsText(page, before, counts), Row(page, e, counts));
  }

  /** The inner pass: one row per URL of list `us`, in order. */
  method AppendBucketRows(csv0: string, ghost head: string, page: string, done: seq<Entry>, b: Bucket,
                          us: seq<string>, counts: Tally<nat>) returns (csv: string)
    requires csv0 == head + RowsText(page, done, counts)
    ensures csv == head + RowsText(page, done + BucketEntries(b, us), counts)
  {
    csv := csv0;
    var j := 0;
    assert done + BucketEntries(b, us[..0]) == done;
    while j < |us|
      invariant 0 <= j <= |us|
      invariant csv == head + RowsText(page, done + BucketEntries(b, us[..j]), counts)
    {
      AppendBucketRowStep(head, page, done, b, us, j, counts);
      csv := csv + Row(page, Entry(b, us[j]), counts);
      j := j + 1;
    }
    assert us[..|us|] == us;
  }

  /** The renderings `f(x)` of the items of `xs`, one after the other. */
  function Join<T>(f: T -> string, xs: seq<T>): string
    decreases |xs|
  {
    if |xs| == 0 then "" else Join(f, xs[..|xs| - 1]) + f(xs[|xs| - 1])
  }

  lemma {:induction false} JoinAppend<T>(f: T -> string, xs: seq<T>, ys: seq<T>)
    ensures Join(f, xs + ys) == Join(f, xs) + Join(f, ys)
    decreases |ys|
  {
    if |ys| == 0 {
      assert xs + ys == xs;
    } else {
      var init := ys[..|ys| - 1];
      var last := f(ys[|ys| - 1]);
      assert (xs + ys)[..|xs + ys| - 1] == xs + init;
      assert (xs + ys)[|xs + ys| - 1] == ys[|ys| - 1];
      JoinAppend(f, xs, init);
      AppendAssoc(Join(f, xs), Join(f, init), last);
    }
  }

  /** After any prefix `head`, the rendering of item `i` follows those of the items before it. */
  lemma JoinAt<T>(head: string, f: T -> string, xs: seq<T>, i: nat)
    requires i < |xs|
    ensures var text := head + Join(f, xs);
      var start := |head| + |Join(f, xs[..i])|;
      && start + |f(xs[i])| <= |text|
      && text[start..start + |f(xs[i])|] == f(xs[i])
  {
    var prefix := xs[..i + 1];
    var before := Join(f, xs[..i]);
    var after := Join(f, xs[i + 1..]);
    assert prefix[..i] == xs[..i];
    assert Join(f, prefix) == before + f(xs[i]);
    assert prefix + xs[i + 1..] == xs;
    JoinAppend(f, prefix, xs[i + 1..]);
    PartsOfFour(head, before, f(xs[i]), after);
    AppendAssoc(head, before + f(xs[i]), after);
    AppendAssoc(head, before, f(xs[i]));
  }

  /** The rows of the entries are their renderings by `Row`, joined. */
  lemma {:induction false} RowsTextIsJoin(page: string, es: seq<Entry>, counts: Tally<nat>)
    ensures RowsText(page, es, counts) == Join((e: Entry) => Row(page, e, counts), es)
    decreases |es|
  {
    if |es| > 0 {
      RowsTextIsJoin(page, es[..|es| - 1], counts);
    }
  }

  /** After any prefix `head`, the row of entry `i` follows the rows of the entries before it. */
  lemma RowAt(head: string, page: string, es: seq<Entry>, counts: Tally<nat>, i: nat)
    requires i < |es|
    ensures var text := head + RowsText(page, es, counts);
      var start := |head| + |RowsText(page, es[..i], counts)|;
      var row := Row(page, es[i], counts);
      && start + |row| <= |text|
      && text[start..start + |row|] == row
  {
    RowsTextIsJoin(page, es, counts);
    RowsTextIsJoin(page, es[..i], counts);
    JoinAt(head, (e: Entry) => Row(page, e, counts), es, i);
  }

  /** The `i`-th stored URL in export order has its own row in the exported text,
      right after the header and the rows of the entries before it. */
  lemma ExportRowAt(st: PageState, page: string, i: nat)
    requires i < |Entries(st.urls)|
    ensures var es := Entries(st.urls);
      var csv := GenerateCsv(st, page);
      var start := |Header| + |RowsText(page, es[..i], st.counts)|;
      var row := Row(page, es[i], st.counts);
      && start + |row| <= |csv|
      && csv[start..start + |row|] == row
  {
    RowAt(Header, page, Entries(st.urls), st.counts, i);
  }

  /** The URLs listed under bucket `b`, in order. */
  function UrlsUnder(es: seq<Entry>, b: Bucket): seq<string>
    decreases |es|
  {
    if |es| == 0 then []
    else UrlsUnder(es[..|es| - 1], b) + (if es[|es| - 1].bucket == b then [es[|es| - 1].url] else [])
  }

  lemma {:induction false} UrlsUnderAppend(xs: seq<Entry>, ys: seq<Entry>, b: Bucket)
    ensures UrlsUnder(xs + ys, b) == UrlsUnder(xs, b) + UrlsUnder(ys, b)
    decreases |ys|
  {
    if |ys| == 0 {
      assert xs + ys == xs;
    } else {
      assert (xs + ys)[..|xs + ys| - 1] == xs + ys[..|ys| - 1];
      UrlsUnderAppend(xs, ys[..|ys| - 1], b);
    }
  }

  lemma {:induction false} UrlsUnderBucketEntries(c: Bucket, us: seq<string>, b: Bucket)
    ensures UrlsUnder(BucketEntries(c, us), b) == if c == b then us else []
    decreases |us|
  {
    if |us| > 0 {
      var n := |us| - 1;
      var es := BucketEntries(c, us);
      var init := BucketEntries(c, us[..n]);
      assert es[..n] == init;
      assert es[n] == Entry(c, us[n]);
      UrlsUnderBucketEntries(c, us[..n], b);
      if c == b {
        assert UrlsUnder(es, b) == us[..n] + [us[n]];
        assert us[..n] + [us[n]] == us;
      } else {
        assert UrlsUnder(es, b) == UrlsUnder(init, b) + [];
      }
    }
  }

  /** The buckets of `bs` are pairwise distinct. */
  predicate DistinctBuckets(bs: seq<Bucket>) {
    forall i, j :: 0 <= i < j < |bs| ==> bs[i] != bs[j]
  }

  /** Dropping the last bucket keeps the rest distinct, and the last is not among them. */
  lemma DistinctInit(bs: seq<Bucket>)
    requires |bs| > 0 && DistinctBuckets(bs)
    ensures DistinctBuckets(bs[..|bs| - 1])
    ensures bs[|bs| - 1] !in bs[..|bs| - 1]
  {
  }

  /** Adding the list of the next bucket to what was listed so far. */
  lemma ListedStep(before: seq<string>, list: seq<string>, wasListed: bool, hit: bool, listed: bool)
    requires before == if wasListed then list else []
    requires listed <==> wasListed || hit
    requires !(wasListed && hit)
    ensures before + (if hit then list else []) == if listed then list else []
  {
    if hit {
      assert before + list == list;
    } else {
      assert before + [] == before;
    }
  }

  /** When no bucket is listed twice, the URLs exported under `b` are its list if
      `b` is among the buckets, and none otherwise. */
  lemma {:induction false} UrlsUnderEntriesOf(bs: seq<Bucket>, urls: Tally<seq<string>>, b: Bucket)
    requires DistinctBuckets(bs)
    ensures UrlsUnder(EntriesOf(bs, urls), b) == if b in bs then urls.Get(b) else []
    decreases |bs|
  {
    if |bs| > 0 {
      var init := bs[..|bs| - 1];
      var c := bs[|bs| - 1];
      DistinctInit(bs);
      UrlsUnderEntriesOf(init, urls, b);
      UrlsUnderAppend(EntriesOf(init, urls), BucketEntries(c, urls.Get(c)), b);
      UrlsUnderBucketEntries(c, urls.Get(c), b);
      assert bs == init + [c];
      ListedStep(UrlsUnder(EntriesOf(init, urls), b), urls.Get(b), b in init, c == b, b in bs);
    }
  }

  /** Exactly the URLs of each list are exported under its name, in arrival order. */
  lemma ExportKeepsEachList(urls: Tally<seq<string>>, b: Bucket)
    ensures UrlsUnder(Entries(urls), b) == urls.Get(b)
  {
    assert DistinctBuckets(AllBuckets);
    assert AllBuckets[BucketIndex(b)] == b;
    UrlsUnderEntriesOf(AllBuckets, urls, b);
  }

  lemma {:induction false} EntriesOfOrdered(n: nat, urls: Tally<seq<string>>)
    requires n <= |AllBuckets|
    ensures var es := EntriesOf(AllBuckets[..n], urls);
      forall i :: 0 <= i < |es| ==> BucketIndex(es[i].bucket) < n
    ensures var es := EntriesOf(AllBuckets[..n], urls);
      forall i, j :: 0 <= i <= j < |es| ==> BucketIndex(es[i].bucket) <= BucketIndex(es[j].bucket)
  {
    if n > 0 {
      var prefix := EntriesOf(AllBuckets[..n - 1], urls);
      var c := AllBuckets[n - 1];
      EntriesOfSnoc(n - 1, urls);
      EntriesOfOrdered(n - 1, urls);
      AllBucketsIndexed(n - 1);
      var es := prefix + BucketEntries(c, urls.Get(c));
      assert forall i :: |prefix| <= i < |es| ==> es[i].bucket == c;
    }
  }

  /** Number of URLs in the lists of the first `n` buckets. */
  function PrefixLength(n: nat, urls: Tally<seq<string>>): nat
    requires n <= |AllBuckets|
  {
    if n == 0 then 0 else PrefixLength(n - 1, urls) + |urls.Get(AllBuckets[n - 1])|
  }

  /** The entries of the first `n` buckets are as many as the URLs in their lists. */
  lemma {:induction false} EntriesOfSize(n: nat, urls: Tally<seq<string>>)
    requires n <= |AllBuckets|
    ensures |EntriesOf(AllBuckets[..n], urls)| == PrefixLength(n, urls)
  {
    if n > 0 {
      EntriesOfSize(n - 1, urls);
      EntriesOfSnoc(n - 1, urls);
    }
  }

  /** Rows are grouped by bucket in the fixed order ok, redirect, broken,
      network_error, invalid_url, unknown, and there is one per stored URL. */
  lemma ExportOrderAndSize(urls: Tally<seq<string>>)
    ensures forall i, j :: 0 <= i <= j < |Entries(urls)| ==>
      BucketIndex(Entries(urls)[i].bucket) <= BucketIndex(Entries(urls)[j].bucket)
    ensures |Entries(urls)| == TotalLength(urls)
  {
    assert AllBuckets[..|AllBuckets|] == AllBuckets;
    EntriesOfOrdered(|AllBuckets|, urls);
    EntriesOfSize(|AllBuckets|, urls);
    assert PrefixLength(1, urls) == |urls.ok|;
    assert PrefixLength(2, urls) == |urls.ok| + |urls.redirect|;
    assert PrefixLength(4, urls) == PrefixLength(2, urls) + |urls.broken| + |urls.networkError|;
    assert PrefixLength(6, urls) == TotalLength(urls);
  }

  /** The export always starts with the header, and is the header alone when no
      URL has been stored. */
  lemma ExportStartsWithHeader(st: PageState, page: string)
    ensures Header <= GenerateCsv(st, page)
    ensures TotalLength(st.urls) == 0 ==> GenerateCsv(st, page) == Header
  {
    ExportOrderAndSize(st.urls);
  }

  /** A string with no line break in it. */
  predicate LineFree(s: string) {
    '\n' !in s
  }

  /** Every stored URL is a single line (true of normalised URLs). */
  ghost predicate StoredUrlsLineFree(urls: Tally<seq<string>>) {
    forall b, u :: u in urls.Get(b) ==> LineFree(u)
  }

  function CountNewlines(s: string): nat
    decreases |s|
  {
    if |s| == 0 then 0 else CountNewlines(s[..|s| - 1]) + (if s[|s| - 1] == '\n' then 1 else 0)
  }

  lemma {:induction false} CountNewlinesAppend(a: string, b: string)
    ensures CountNewlines(a + b) == CountNewlines(a) + CountNewlines(b)
    decreases |b|
  {
    if |b| == 0 {
      assert a + b == a;
    } else {
      assert (a + b)[..|a + b| - 1] == a + b[..|b| - 1];
      CountNewlinesAppend(a, b[..|b| - 1]);
    }
  }

  lemma {:induction false} LineFreeHasNoNewlines(s: string)
    requires LineFree(s)
    ensures CountNewlines(s) == 0
    decreases |s|
  {
    if |s| > 0 {
      assert s[|s| - 1] in s;
      assert forall x :: x in s[..|s| - 1] ==> x in s;
      LineFreeHasNoNewlines(s[..|s| - 1]);
    }
  }

  lemma DigitsAreLineFree(n: nat)
    ensures LineFree(NatToString(n))
  {
  }

  /** A row is one line when the page address and the URL are. */
  lemma RowIsOneLine(page: string, e: Entry, counts: Tally<nat>)
    requires LineFree(page) && LineFree(e.url)
    ensures CountNewlines(Row(page, e, counts)) == 1
  {
    DigitsAreLineFree(counts.ok);
    DigitsAreLineFree(counts.redirect);
    DigitsAreLineFree(counts.broken);
    DigitsAreLineFree(counts.networkError);
    DigitsAreLineFree(counts.invalidUrl);
    DigitsAreLineFree(counts.unknown);
    assert LineFree(TotalsText(counts));
    assert LineFree(BucketName(e.bucket));
    var body := "\"" + page + "\",\"" + e.url + "\",\"" + BucketName(e.bucket) + "\"," + TotalsText(counts);
    assert Row(page, e, counts) == body + "\n";
    assert LineFree(body);
    LineFreeHasNoNewlines(body);
    CountNewlinesAppend(body, "\n");
  }

  lemma {:induction false} RowsAreOneLineEach(page: string, es: seq<Entry>, counts: Tally<nat>)
    requires LineFree(page)
    requires forall i :: 0 <= i < |es| ==> LineFree(es[i].url)
    ensures CountNewlines(RowsText(page, es, counts)) == |es|
    decreases |es|
  {
    if |es| > 0 {
      RowsAreOneLineEach(page, es[..|es| - 1], counts);
      RowIsOneLine(page, es[|es| - 1], counts);
      CountNewlinesAppend(RowsText(page, es[..|es| - 1], counts), Row(page, es[|es| - 1], counts));
    }
  }

  /** The entry is one of the URLs stored under its bucket. */
  predicate IsStored(e: Entry, urls: Tally<seq<string>>) {
    e.url in urls.Get(e.bucket)
  }

  lemma {:induction false} EntriesAreStored(n: nat, urls: Tally<seq<string>>)
    requires n <= |AllBuckets|
    ensures forall e :: e in EntriesOf(AllBuckets[..n], urls) ==> IsStored(e, urls)
  {
    if n > 0 {
      var prefix := EntriesOf(AllBuckets[..n - 1], urls);
      var c := AllBuckets[n - 1];
      var last := BucketEntries(c, urls.Get(c));
      assert AllBuckets[..n][..n - 1] == AllBuckets[..n - 1];
      assert EntriesOf(AllBuckets[..n], urls) == prefix + last;
      EntriesAreStored(n - 1, urls);
      forall e | e in last
        ensures IsStored(e, urls)
      {
        var k :| 0 <= k < |last| && last[k] == e;
        assert urls.Get(c)[k] in urls.Get(c);
      }
    }
  }

  /** After the header the export has exactly one line per stored URL, and with
      the page invariant that is one line per counted reply. */
  lemma ExportLineCount(st: PageState, page: string)
    requires LineFree(page) && StoredUrlsLineFree(st.urls)
    ensures Header <= GenerateCsv(st, page)
    ensures CountNewlines(GenerateCsv(st, page)[|Header|..]) == TotalLength(st.urls)
    ensures Inv(st) ==> CountNewlines(GenerateCsv(st, page)[|Header|..]) == Total(st.counts)
  {
    var es := Entries(st.urls);
    EntriesAreStored(|AllBuckets|, st.urls);
    assert AllBuckets[..|AllBuckets|] == AllBuckets;
    forall i | 0 <= i < |es|
      ensures LineFree(es[i].url)
    {
      assert es[i] in es;
      assert IsStored(es[i], st.urls);
    }
    RowsAreOneLineEach(page, es, st.counts);
    assert GenerateCsv(st, page)[|Header|..] == RowsText(page, es, st.counts);
    ExportOrderAndSize(st.urls);
    if Inv(st) {
      TotalOfMatchingCounts(st.counts, st.urls);
    }
  }
}

=== FILE: listener.dfy ===
/** The page script's `onMessage` listener: the popup's four requests, checked by
    `action` in order, and otherwise a probe reply from the background script. */
module Listener {
  import opened Options
  import opened Tally
  import opened Page
  import opened Aggregator
  import opened Annotator
  import opened Export

  datatype Request =
    | GetStatusCounts
    | ExportData
    | HighlightLink(url: string, status: string)
    | ClearHighlightRequest
    | ProbeReply(url: string, linkId: Option<string>, httpStatus: int, linkStatusType: string)

  datatype Response =
    | NoResponse
    | StatusSnapshot(counts: Tally<nat>, urls: Tally<seq<string>>)
    | ExportedCsv(csvData: string, pageUrl: string)

  /** What the page offers the listener: its address and its `a[href]` anchors. */
  datatype Document = Document(location: string, anchors: seq<Anchor>)

  /** The new page state and the response sent back, if any. */
  function OnMessage(st: PageState, req: Request, doc: Document): (r: (PageState, Response))
    ensures req.GetStatusCounts? || req.ExportData? ==> r.0 == st
    ensures req.GetStatusCounts? ==> r.1.StatusSnapshot? && r.1.counts == st.counts && r.1.urls == st.urls
    ensures req.ExportData? ==> r.1 == ExportedCsv(GenerateCsv(st, doc.location), doc.location)
    ensures req.HighlightLink? || req.ClearHighlightRequest? || req.ProbeReply? ==> r.1.NoResponse?
    ensures req.ProbeReply? ==> r.0.urls == st.urls || TotalLength(r.0.urls) == TotalLength(st.urls) + 1
  {
    match req
    case GetStatusCounts => (st, StatusSnapshot(st.counts, st.urls))
    case ExportData => (st, ExportedCsv(GenerateCsv(st, doc.location), doc.location))
    case HighlightLink(url, status) => (HighlightLinkOnPage(st, doc.anchors, url, status), NoResponse)
    case ClearHighlightRequest => (ClearHighlight(st), NoResponse)
    case ProbeReply(url, linkId, _, t) => (ApplyReply(st, linkId, url, t), NoResponse)
  }

  /** Querying the counts twice with nothing in between gives the same answer, and
      the answer is consistent: each count is the length of its list. */
  lemma StatusQueryIsStable(st: PageState, doc: Document)
    requires Inv(st)
    ensures var (s1, a1) := OnMessage(st, GetStatusCounts, doc);
      var (s2, a2) := OnMessage(s1, GetStatusCounts, doc);
      s2 == st && a1 == a2 && CountsMatch(a1.counts, a1.urls)
  {
  }

  lemma OnMessagePreservesInv(st: PageState, req: Request, doc: Document)
    requires Inv(st)
    ensures Inv(OnMessage(st, req, doc).0)
  {
    match req
    case HighlightLink(url, status) => HighlightPreservesInv(st, doc.anchors, url, status);
    case ClearHighlightRequest => ClearPreservesInv(st);
    case ProbeReply(url, linkId, _, t) => ApplyReplyPreservesInv(st, linkId, url, t);
    case _ =>
  }
}

=== FILE: options.dfy ===
/** The optional values used throughout the model: a JavaScript value that may be
    `undefined` (a missing message field, a failed parse, no highlighted element). */
module Options {

  datatype Option<+T> = None | Some(value: T)
}

=== FILE: page.dfy ===
/** The per-page state of the content script: the id counter, the registry of links
    awaiting a reply, the six counters and URL lists, the `checkLink` messages sent
    so far, and the styling the script has applied to link elements. */
module Page {
  import opened Options
  import opened Decimal
  import opened Status
  import opened Tally
  import opened Prober

  /** An anchor element of the page, as an opaque handle. */
  datatype Element = Element(handle: nat)

  /** The identifier `link-N` of the N-th processed link. */
  function LinkId(n: nat): (id: string)
    ensures |id| > 5 && id[..5] == "link-"
    ensures forall i :: 5 <= i < |id| ==> IsDigit(id[i])
    ensures |id| > 6 ==> id[5] != '0'
    ensures DecimalValue(id[5..]) == n
  {
    var digits := NatToString(n);
    DecimalRoundTrip(n);
    assert ("link-" + digits)[5..] == digits;
    "link-" + digits
  }

  /** Distinct counter values give distinct identifiers. */
  lemma LinkIdInjective(a: nat, b: nat)
    requires a != b
    ensures LinkId(a) != LinkId(b)
  {
    NatToStringInjective(a, b);
    assert LinkId(a)[5..] == NatToString(a);
    assert LinkId(b)[5..] == NatToString(b);
  }

  datatype PageState = PageState(
    nextId: nat,                        // linkIdCounter
    registry: map<string, Element>,     // linkElements
    counts: Tally<nat>,                 // statusCounts
    urls: Tally<seq<string>>,           // statusUrls
    outbox: seq<CheckLink>,             // checkLink messages sent, oldest first
    colors: map<Element, Color>,        // text colour set on resolved links
    highlighted: Option<Element>,       // highlightedElement
    outlines: map<Element, Color>       // dashed outline currently on an element
  )

  /** The state on page load. */
  const Initial: PageState := PageState(0, map[], NoCounts, NoUrls, [], map[], None, map[])

  /** The elements an optional highlight refers to. */
  function HighlightSet(h: Option<Element>): set<Element> {
    if h.Some? then {h.value} else {}
  }

  /** `id` is one of the identifiers handed out while the counter was below `n`. */
  ghost predicate Issued(id: string, n: nat) {
    exists k :: 0 <= k < n && id == LinkId(k)
  }

  /** The identifiers of all `checkLink` messages sent are pairwise distinct. */
  ghost predicate DistinctIds(outbox: seq<CheckLink>) {
    forall i, j :: 0 <= i < j < |outbox| ==> outbox[i].linkId != outbox[j].linkId
  }

  ghost predicate Sent(id: string, outbox: seq<CheckLink>) {
    exists i :: 0 <= i < |outbox| && outbox[i].linkId == id
  }

  /** What every page operation keeps. */
  ghost predicate Inv(st: PageState) {
    && CountsMatch(st.counts, st.urls)
    && (forall id :: id in st.registry ==> Issued(id, st.nextId))
    && (forall id :: id in st.registry ==> Sent(id, st.outbox))
    && (forall i :: 0 <= i < |st.outbox| ==> Issued(st.outbox[i].linkId, st.nextId))
    && DistinctIds(st.outbox)
    && Total(st.counts) + |st.registry| == |st.outbox|
    && st.outlines.Keys == HighlightSet(st.highlighted)
  }

  lemma InitialInv()
    ensures Inv(Initial)
  {
  }

  /** An identifier already issued is never the one the counter hands out next. */
  lemma NextIdIsFresh(st: PageState, id: string)
    requires Issued(id, st.nextId)
    ensures id != LinkId(st.nextId)
  {
    var k :| 0 <= k < st.nextId && id == LinkId(k);
    LinkIdInjective(k, st.nextId);
  }
}

=== FILE: prober.dfy ===
/** The background script's `checkLink` handler: validate the URL, otherwise
    issue one HEAD request and classify its outcome into a single reply. */
module Prober {
  import opened Options
  import opened Status
  import opened Url

  /** The `{action: 'checkLink', url, linkId}` request sent by the page. */
  datatype CheckLink = CheckLink(url: string, linkId: string)

  /** What the HEAD fetch settled to; the network itself is not modelled. */
  datatype Outcome = Failed | Response(redirected: bool, status: int)

  /** The reply sent back to the tab. `redirected` is absent from the
      `invalid_url` and `network_error` replies. */
  datatype Reply = Reply(url: string, linkId: string, status: int, redirected: Option<bool>,
                         kind: Kind, isBroken: bool)

  /** What the handler does on receiving a request before any network activity. */
  datatype Dispatch = Immediate(reply: Reply) | FetchHead(target: string)

  /** Classification of a completed fetch. Checked in priority order: redirect,
      then status >= 400, then 200, then 0; everything else stays `unknown`. */
  function Classify(redirected: bool, status: int): (k: Kind)
    ensures k == Redirect <==> redirected
    ensures k == Broken <==> !redirected && status >= 400
    ensures k == Ok <==> !redirected && status == 200
    ensures k == BrokenInferred <==> !redirected && status == 0
    ensures k == Unknown <==> !redirected && status != 0 && status != 200 && status < 400
    ensures k != NetworkError && k != InvalidUrl
  {
    if redirected then Redirect
    else if status >= 400 then Broken
    else if status == 200 then Ok
    else if status == 0 then BrokenInferred
    else Unknown
  }

  /** The `isBroken` flag of a completed fetch's reply. */
  predicate BrokenFlag(k: Kind) {
    k == Broken || k == BrokenInferred
  }

  /** Reply for a URL the handler rejects. */
  function InvalidReply(req: CheckLink): (r: Reply)
    ensures r.url == req.url && r.linkId == req.linkId
    ensures r.kind == InvalidUrl && r.status == 0 && r.isBroken && r.redirected.None?
  {
    Reply(req.url, req.linkId, 0, None, InvalidUrl, true)
  }

  /** The validation step: a rejected URL is answered at once, an accepted one is fetched. */
  function DispatchRequest(parse: Parser, req: CheckLink): (d: Dispatch)
    ensures d.FetchHead? <==> Accepts(parse, req.url)
    ensures d.FetchHead? ==> d.target == req.url
    ensures d.Immediate? ==> d.reply == InvalidReply(req)
  {
    if Accepts(parse, req.url) then FetchHead(req.url) else Immediate(InvalidReply(req))
  }

  /** The `then` / `catch` continuations of the fetch. */
  function Complete(req: CheckLink, outcome: Outcome): (r: Reply)
    ensures r.url == req.url && r.linkId == req.linkId
    ensures outcome.Failed? ==> r.kind == NetworkError && r.status == 0 && r.isBroken && r.redirected.None?
    ensures outcome.Response? ==>
      && r.kind == Classify(outcome.redirected, outcome.status)
      && r.status == outcome.status
      && r.redirected == Some(outcome.redirected)
      && (r.isBroken <==> r.kind == Broken || r.kind == BrokenInferred)
  {
    match outcome
    case Failed => Reply(req.url, req.linkId, 0, None, NetworkError, true)
    case Response(redirected, status) =>
      var k := Classify(redirected, status);
      Reply(req.url, req.linkId, status, Some(redirected), k, BrokenFlag(k))
  }

  /** The whole handler: the single reply a request receives, given how the fetch
      would settle (ignored when no fetch is made). */
  function Handle(parse: Parser, req: CheckLink, outcome: Outcome): (r: Reply)
    ensures r.url == req.url && r.linkId == req.linkId
    ensures r.kind == InvalidUrl <==> !Accepts(parse, req.url)
    ensures !Accepts(parse, req.url) ==> r == InvalidReply(req)
    ensures Accepts(parse, req.url) ==> r == Complete(req, outcome)
  {
    match DispatchRequest(parse, req)
    case Immediate(r) => r
    case FetchHead(_) => Complete(req, outcome)
  }

  /** Every reply echoes the request's URL and identifier. */
  lemma ReplyEchoesRequest(parse: Parser, req: CheckLink, outcome: Outcome)
    ensures Handle(parse, req, outcome).url == req.url
    ensures Handle(parse, req, outcome).linkId == req.linkId
  {
  }

  /** A rejected URL gets one `invalid_url` reply whatever the network would have
      done, since no fetch is made; an accepted one never gets `invalid_url`. */
  lemma InvalidUrlExactlyWhenRejected(parse: Parser, req: CheckLink, outcome: Outcome)
    ensures Handle(parse, req, outcome).kind == InvalidUrl <==> !Accepts(parse, req.url)
    ensures !Accepts(parse, req.url) ==>
      forall o :: Handle(parse, req, o) == InvalidReply(req)
  {
  }

  /** `isBroken` holds exactly for the replies the page paints red: broken,
      broken_inferred, network_error and invalid_url. */
  lemma BrokenFlagMatchesRed(parse: Parser, req: CheckLink, outcome: Outcome)
    ensures Handle(parse, req, outcome).isBroken <==>
      AnnotationColor(BucketOfType(KindName(Handle(parse, req, outcome).kind))) == Red
  {
  }
}

=== FILE: scanner.dfy ===
/** `processLink`: allocate the next identifier, register the element, and either
    send a `checkLink` request for the normalised URL or undo the registration. */
module Scanner {
  import opened Options
  import opened Tally
  import opened Url
  import opened Prober
  import opened Page

  /** The identifier is taken (and the counter advanced) before validation, and the
      element is registered before the URL is checked, as the script does. */
  function ProcessLink(parse: Parser, st: PageState, e: Element, href: string): (r: PageState)
    ensures r.nextId == st.nextId + 1
    ensures r.counts == st.counts && r.urls == st.urls && r.colors == st.colors
    ensures r.highlighted == st.highlighted && r.outlines == st.outlines
    ensures st.outbox <= r.outbox
    ensures |r.outbox| == if Accepts(parse, href) then |st.outbox| + 1 else |st.outbox|
    ensures r.registry.Keys <= st.registry.Keys + {LinkId(st.nextId)}
  {
    var id := LinkId(st.nextId);
    var registered := st.(nextId := st.nextId + 1, registry := st.registry[id := e]);
    match Validate(parse, href)
    case None => registered.(registry := registered.registry - {id})
    case Some(u) => registered.(outbox := registered.outbox + [CheckLink(u, id)])
  }

  /** A link that fails to parse or is not http(s) leaves the registry as it was
      and sends nothing; only the counter moves on. */
  lemma RejectedLinkChangesNothing(parse: Parser, st: PageState, e: Element, href: string)
    requires Inv(st)
    requires !Accepts(parse, href)
    ensures ProcessLink(parse, st, e, href).registry == st.registry
    ensures ProcessLink(parse, st, e, href).outbox == st.outbox
    ensures ProcessLink(parse, st, e, href) == st.(nextId := st.nextId + 1)
  {
    var id := LinkId(st.nextId);
    assert id !in st.registry by {
      if id in st.registry {
        NextIdIsFresh(st, id);
      }
    }
    UpdateThenRemove(st.registry, id, e);
  }

  lemma UpdateThenRemove<K, V>(m: map<K, V>, k: K, v: V)
    requires k !in m
    ensures m[k := v] - {k} == m
  {
  }

  /** An accepted link registers exactly one new identifier, never issued before,
      and sends exactly one request carrying that identifier and the normalised URL. */
  lemma AcceptedLinkRegistersAndSends(parse: Parser, st: PageState, e: Element, href: string)
    requires Inv(st)
    requires Accepts(parse, href)
    ensures var r := ProcessLink(parse, st, e, href);
      && LinkId(st.nextId) !in st.registry
      && r.registry.Keys == st.registry.Keys + {LinkId(st.nextId)}
      && r.registry[LinkId(st.nextId)] == e
      && (forall id :: id in st.registry ==> r.registry[id] == st.registry[id])
      && r.outbox == st.outbox + [CheckLink(parse(href).value.href, LinkId(st.nextId))]
      && (forall i :: 0 <= i < |st.outbox| ==> st.outbox[i].linkId != LinkId(st.nextId))
  {
    var id := LinkId(st.nextId);
    if id in st.registry {
      NextIdIsFresh(st, id);
    }
    forall i | 0 <= i < |st.outbox|
      ensures st.outbox[i].linkId != id
    {
      NextIdIsFresh(st, st.outbox[i].linkId);
    }
  }

  lemma ProcessLinkPreservesInv(parse: Parser, st: PageState, e: Element, href: string)
    requires Inv(st)
    ensures Inv(ProcessLink(parse, st, e, href))
  {
    if Accepts(parse, href) {
      AcceptedPreservesInv(parse, st, e, href);
    } else {
      RejectedLinkChangesNothing(parse, st, e, href);
      var r := st.(nextId := st.nextId + 1);
      forall x | Issued(x, st.nextId)
        ensures Issued(x, r.nextId)
      {
        IssuedMonotone(x, st.nextId, r.nextId);
      }
    }
  }

  lemma IssuedMonotone(x: string, n: nat, m: nat)
    requires Issued(x, n) && n <= m
    ensures Issued(x, m)
  {
    var k :| 0 <= k < n && x == LinkId(k);
  }

  lemma AcceptedPreservesInv(parse: Parser, st: PageState, e: Element, href: string)
    requires Inv(st)
    requires Accepts(parse, href)
    ensures Inv(ProcessLink(parse, st, e, href))
  {
    AcceptedKeepsRegistryIssued(parse, st, e, href);
    AcceptedKeepsOutboxIssued(parse, st, e, href);
    AcceptedKeepsAccounting(parse, st, e, href);
  }

  lemma AcceptedKeepsRegistryIssued(parse: Parser, st: PageState, e: Element, href: string)
    requires Inv(st)
    requires Accepts(parse, href)
    ensures var r := ProcessLink(parse, st, e, href);
      forall x :: x in r.registry ==> Issued(x, r.nextId) && Sent(x, r.outbox)
  {
    var r := ProcessLink(parse, st, e, href);
    var id := LinkId(st.nextId);
    AcceptedLinkRegistersAndSends(parse, st, e, href);
    assert Issued(id, r.nextId);
    assert r.outbox[|st.outbox|].linkId == id;
    forall x | x in r.registry
      ensures Issued(x, r.nextId) && Sent(x, r.outbox)
    {
      if x != id {
        IssuedMonotone(x, st.nextId, r.nextId);
        var i :| 0 <= i < |st.outbox| && st.outbox[i].linkId == x;
        assert r.outbox[i].linkId == x;
      }
    }
  }

  lemma AcceptedKeepsOutboxIssued(parse: Parser, st: PageState, e: Element, href: string)
    requires Inv(st)
    requires Accepts(parse, href)
    ensures var r := ProcessLink(parse, st, e, href);
      (forall i :: 0 <= i < |r.outbox| ==> Issued(r.outbox[i].linkId, r.nextId)) && DistinctIds(r.outbox)
  {
    var r := ProcessLink(parse, st, e, href);
    var id := LinkId(st.nextId);
    AcceptedLinkRegistersAndSends(parse, st, e, href);
    assert Issued(id, r.nextId);
    forall i | 0 <= i < |r.outbox|
      ensures Issued(r.outbox[i].linkId, r.nextId)
    {
      if i < |st.outbox| {
        IssuedMonotone(r.outbox[i].linkId, st.nextId, r.nextId);
      }
    }
  }

  lemma AcceptedKeepsAccounting(parse: Parser, st: PageState, e: Element, href: string)
    requires Inv(st)
    requires Accepts(parse, href)
    ensures var r := ProcessLink(parse, st, e, href);
      Total(r.counts) + |r.registry| == |r.outbox|
  {
    var r := ProcessLink(parse, st, e, href);
    var id := LinkId(st.nextId);
    AcceptedLinkRegistersAndSends(parse, st, e, href);
    assert |r.registry| == |st.registry| + 1 by {
      assert r.registry.Keys == st.registry.Keys + {id};
      assert id !in st.registry.Keys;
    }
  }
}

=== FILE: status.dfy ===
/** The status vocabulary shared by the background prober and the page script:
    the seven `linkStatusType` values a reply can carry, the six buckets the page
    aggregates them into, their wire names and the colours the page paints. */
module Status {

  /** `linkStatusType` as the prober computes it. */
  datatype Kind = Ok | Redirect | Broken | BrokenInferred | NetworkError | InvalidUrl | Unknown

  /** The six aggregation buckets of the page (`statusCounts` / `statusUrls` keys). */
  datatype Bucket = OkBucket | RedirectBucket | BrokenBucket | NetworkErrorBucket | InvalidUrlBucket | UnknownBucket

  datatype Color = Green | Orange | Red | Gray

  /** Wire spelling of a kind. */
  function KindName(k: Kind): string {
    match k
    case Ok => "ok"
    case Redirect => "redirect"
    case Broken => "broken"
    case BrokenInferred => "broken_inferred"
    case NetworkError => "network_error"
    case InvalidUrl => "invalid_url"
    case Unknown => "unknown"
  }

  /** Key of a bucket in `statusCounts`, `statusUrls`, the CSV and the highlight request. */
  function BucketName(b: Bucket): string {
    match b
    case OkBucket => "ok"
    case RedirectBucket => "redirect"
    case BrokenBucket => "broken"
    case NetworkErrorBucket => "network_error"
    case InvalidUrlBucket => "invalid_url"
    case UnknownBucket => "unknown"
  }

  /** Buckets in the key order of `statusUrls`, which is the CSV row order. */
  const AllBuckets: seq<Bucket> :=
    [OkBucket, RedirectBucket, BrokenBucket, NetworkErrorBucket, InvalidUrlBucket, UnknownBucket]

  /** Position of a bucket in `AllBuckets`. */
  function BucketIndex(b: Bucket): (i: nat)
    ensures i < |AllBuckets| && AllBuckets[i] == b
  {
    match b
    case OkBucket => 0
    case RedirectBucket => 1
    case BrokenBucket => 2
    case NetworkErrorBucket => 3
    case InvalidUrlBucket => 4
    case UnknownBucket => 5
  }

  /** Each bucket sits at its own position of `AllBuckets`. */
  lemma AllBucketsIndexed(i: nat)
    requires i < |AllBuckets|
    ensures BucketIndex(AllBuckets[i]) == i
  {
  }

  /** The `switch (request.linkStatusType)` of the page's reply handler: which bucket
      a received type string lands in. Strings it does not name go to `unknown`. */
  function BucketOfType(t: string): (b: Bucket)
    ensures b != UnknownBucket ==> BucketName(b) == t || t == "broken_inferred"
    ensures t == "broken_inferred" ==> b == BrokenBucket
  {
    match t
    case "redirect" => RedirectBucket
    case "broken" => BrokenBucket
    case "broken_inferred" => BrokenBucket
    case "network_error" => NetworkErrorBucket
    case "invalid_url" => InvalidUrlBucket
    case "ok" => OkBucket
    case _ => UnknownBucket
  }

  /** Colour the reply handler paints a link landing in bucket `b`. */
  function AnnotationColor(b: Bucket): (c: Color)
    ensures c == Green <==> b == OkBucket
    ensures c == Orange <==> b == RedirectBucket
    ensures c == Red <==> b == BrokenBucket || b == NetworkErrorBucket || b == InvalidUrlBucket
    ensures c == Gray <==> b == UnknownBucket
  {
    match b
    case OkBucket => Green
    case RedirectBucket => Orange
    case BrokenBucket => Red
    case NetworkErrorBucket => Red
    case InvalidUrlBucket => Red
    case UnknownBucket => Gray
  }

  /** `statusColors[status] || 'gray'` of the highlight routine. */
  function HighlightColor(status: string): (c: Color)
    ensures forall b :: BucketName(b) == status ==> c == AnnotationColor(b)
    ensures c != Gray ==> exists b :: BucketName(b) == status
  {
    match status
    case "ok" => assert BucketName(OkBucket) == status; Green
    case "redirect" => assert BucketName(RedirectBucket) == status; Orange
    case "broken" => assert BucketName(BrokenBucket) == status; Red
    case "network_error" => assert BucketName(NetworkErrorBucket) == status; Red
    case "invalid_url" => assert BucketName(InvalidUrlBucket) == status; Red
    case _ => Gray
  }

  /** The switch sends `broken` and `broken_inferred` to the broken bucket, the
      other four names it lists to their own bucket, and every other string to
      `unknown`. */
  lemma TypeSwitchBuckets(t: string)
    ensures BucketOfType(t) == BrokenBucket <==> t == "broken" || t == "broken_inferred"
    ensures BucketOfType(t) == UnknownBucket <==>
      t !in {"redirect", "broken", "broken_inferred", "network_error", "invalid_url", "ok"}
    ensures BucketOfType(t) != BrokenBucket && BucketOfType(t) != UnknownBucket ==>
      t == BucketName(BucketOfType(t))
  {
  }

  /** A status name missing from the colour table is highlighted gray. */
  lemma HighlightDefaultsToGray(status: string)
    ensures status !in {"ok", "redirect", "broken", "network_error", "invalid_url"} ==>
      HighlightColor(status) == Gray
  {
  }

  /** Every bucket name is read back as that bucket. */
  lemma BucketNameRoundTrip(b: Bucket)
    ensures BucketOfType(BucketName(b)) == b
  {
  }

  /** The bucket a prober kind lands in once sent over the wire: every kind keeps
      its own bucket except `broken_inferred`, which is merged into `broken`. */
  lemma KindLandsInBucket(k: Kind)
    ensures BucketOfType(KindName(k)) == BrokenBucket <==> k == Broken || k == BrokenInferred
    ensures k != BrokenInferred ==> BucketName(BucketOfType(KindName(k))) == KindName(k)
  {
  }

  /** The highlight colour for a bucket's name is the colour its links are painted. */
  lemma HighlightMatchesAnnotation(b: Bucket)
    ensures HighlightColor(BucketName(b)) == AnnotationColor(b)
  {
  }
}

=== FILE: system.dfy ===
/** Both scripts together: the page scans links and receives, for any request it
    has sent, the reply the background handler produces, in any order and possibly
    more than once. */
module System {
  import opened Options
  import opened Status
  import opened Tally
  import opened Url
  import opened Prober
  import opened Page
  import opened Scanner
  import opened Aggregator
  import Listener

  datatype Event =
    | Scan(element: Element, href: string)      // processLink on one anchor
    | Settle(index: nat, outcome: Outcome)      // the reply to the index-th request arrives

  /** The page's listener receiving `reply`: it carries no `action`, so it reaches
      the reply branch with the kind's wire name as `linkStatusType`. */
  function Deliver(st: PageState, reply: Reply): PageState {
    ApplyReply(st, Some(reply.linkId), reply.url, KindName(reply.kind))
  }

  /** Delivery is the listener's reply branch: the reply object carries no
      `action`, so it falls through to the `linkId` lookup, and no response is sent. */
  lemma DeliverIsListenerReply(st: PageState, reply: Reply, doc: Listener.Document)
    ensures Listener.OnMessage(st, Listener.ProbeReply(reply.url, Some(reply.linkId), reply.status, KindName(reply.kind)), doc)
      == (Deliver(st, reply), Listener.NoResponse)
  {
  }

  /** One event: a scan runs `processLink`; a settle delivers the background's
      reply to the `index`-th request sent, and is ignored for an unsent index. */
  function Step(parse: Parser, st: PageState, ev: Event): (r: PageState)
    ensures st.outbox <= r.outbox
    ensures |r.outbox| == |st.outbox| + AcceptedScan(parse, ev)
    ensures r.nextId == st.nextId + (if ev.Scan? then 1 else 0)
    ensures ev.Settle? ==> r.outbox == st.outbox
  {
    match ev
    case Scan(e, href) => ProcessLink(parse, st, e, href)
    case Settle(i, o) =>
      if i < |st.outbox| then Deliver(st, Handle(parse, st.outbox[i], o)) else st
  }

  function Run(parse: Parser, st: PageState, evs: seq<Event>): PageState
    decreases |evs|
  {
    if |evs| == 0 then st else Step(parse, Run(parse, st, evs[..|evs| - 1]), evs[|evs| - 1])
  }

  /** Number of scanned links whose href the page accepts. */
  function AcceptedScans(parse: Parser, evs: seq<Event>): nat
    decreases |evs|
  {
    if |evs| == 0 then 0 else AcceptedScans(parse, evs[..|evs| - 1]) + AcceptedScan(parse, evs[|evs| - 1])
  }

  function AcceptedScan(parse: Parser, ev: Event): nat {
    if ev.Scan? && Accepts(parse, ev.href) then 1 else 0
  }

  lemma StepPreservesInv(parse: Parser, st: PageState, ev: Event)
    requires Inv(st)
    ensures Inv(Step(parse, st, ev))
  {
    match ev
    case Scan(e, href) =>
      assert Step(parse, st, ev) == ProcessLink(parse, st, e, href);
      ProcessLinkPreservesInv(parse, st, e, href);
    case Settle(i, o) =>
      if i < |st.outbox| {
        var reply := Handle(parse, st.outbox[i], o);
        assert Step(parse, st, ev) == Deliver(st, reply);
        ApplyReplyPreservesInv(st, Some(reply.linkId), reply.url, KindName(reply.kind));
      }
  }

  /** A reply delivered a second time changes nothing, whatever its outcome. */
  lemma SettleTwiceIsSettleOnce(parse: Parser, st: PageState, i: nat, o: Outcome, o': Outcome)
    ensures Step(parse, Step(parse, st, Settle(i, o)), Settle(i, o')) == Step(parse, st, Settle(i, o))
  {
    if i < |st.outbox| {
      var req := st.outbox[i];
      var once := Step(parse, st, Settle(i, o));
      var first := Handle(parse, req, o);
      var second := Handle(parse, req, o');
      ReplyEchoesRequest(parse, req, o);
      ReplyEchoesRequest(parse, req, o');
      ReplyAppliedAtMostOnce(st, Some(req.linkId), first.url, KindName(first.kind),
                             second.url, KindName(second.kind));
    }
  }

  /** From page load, along any interleaving of scans and replies: the invariants
      hold, and every counted reply or pending registration stems from one
      accepted link, so once nothing is pending the counts add up to the number of
      accepted links scanned. */
  lemma {:induction false} RunKeepsInvAndAccounts(parse: Parser, evs: seq<Event>)
    ensures Inv(Run(parse, Initial, evs))
    ensures |Run(parse, Initial, evs).outbox| == AcceptedScans(parse, evs)
    ensures Total(Run(parse, Initial, evs).counts) + |Run(parse, Initial, evs).registry| ==
            AcceptedScans(parse, evs)
    decreases |evs|
  {
    if |evs| == 0 {
      InitialInv();
    } else {
      var before := Run(parse, Initial, evs[..|evs| - 1]);
      var ev := evs[|evs| - 1];
      RunKeepsInvAndAccounts(parse, evs[..|evs| - 1]);
      StepPreservesInv(parse, before, ev);
    }
  }

  /** What the system keeps when the parser re-parses normalised URLs faithfully. */
  ghost predicate NoInvalidUrls(parse: Parser, st: PageState) {
    && (forall i :: 0 <= i < |st.outbox| ==> Accepts(parse, st.outbox[i].url))
    && st.counts.invalidUrl == 0
    && st.urls.invalidUrl == []
  }

  lemma ScanKeepsNoInvalidUrls(parse: Parser, st: PageState, e: Element, href: string)
    requires ReparseKeepsProtocol(parse)
    requires NoInvalidUrls(parse, st)
    ensures NoInvalidUrls(parse, ProcessLink(parse, st, e, href))
  {
    var r := ProcessLink(parse, st, e, href);
    if Validate(parse, href).Some? {
      ValidatedIsAccepted(parse, href);
      assert r.outbox == st.outbox + [CheckLink(Validate(parse, href).value, LinkId(st.nextId))];
    } else {
      assert r.outbox == st.outbox;
    }
  }

  /** A request the page sent is never answered `invalid_url`. */
  lemma SettleKeepsNoInvalidUrls(parse: Parser, st: PageState, i: nat, o: Outcome)
    requires NoInvalidUrls(parse, st)
    requires i < |st.outbox|
    ensures NoInvalidUrls(parse, Step(parse, st, Settle(i, o)))
  {
    var reply := Handle(parse, st.outbox[i], o);
    InvalidUrlExactlyWhenRejected(parse, st.outbox[i], o);
    var t := KindName(reply.kind);
    assert BucketOfType(t) != InvalidUrlBucket by {
      KindLandsInBucket(reply.kind);
    }
    var r := ApplyReply(st, Some(reply.linkId), reply.url, t);
    assert Step(parse, st, Settle(i, o)) == r;
    assert r.outbox == st.outbox;
    assert r.counts.Get(InvalidUrlBucket) == st.counts.Get(InvalidUrlBucket);
    assert r.urls.Get(InvalidUrlBucket) == st.urls.Get(InvalidUrlBucket);
  }

  /** So the `invalid_url` bucket receives nothing from the page's own requests. */
  lemma StepKeepsNoInvalidUrls(parse: Parser, st: PageState, ev: Event)
    requires ReparseKeepsProtocol(parse)
    requires NoInvalidUrls(parse, st)
    ensures NoInvalidUrls(parse, Step(parse, st, ev))
  {
    match ev
    case Scan(e, href) => ScanKeepsNoInvalidUrls(parse, st, e, href);
    case Settle(i, o) =>
      if i < |st.outbox| {
        SettleKeepsNoInvalidUrls(parse, st, i, o);
      }
  }

  /** The background script's `invalid_url` verdict is unreachable for links the
      page scanned itself: the page rejects those URLs before sending them. */
  lemma {:induction false} InvalidUrlBucketStaysEmpty(parse: Parser, evs: seq<Event>)
    requires ReparseKeepsProtocol(parse)
    ensures NoInvalidUrls(parse, Run(parse, Initial, evs))
    decreases |evs|
  {
    if |evs| > 0 {
      InvalidUrlBucketStaysEmpty(parse, evs[..|evs| - 1]);
      StepKeepsNoInvalidUrls(parse, Run(parse, Initial, evs[..|evs| - 1]), evs[|evs| - 1]);
    }
  }
}

=== FILE: tally.dfy ===
/** One value per bucket: the shape of the page's `statusCounts` and `statusUrls` objects. */
module Tally {
  import opened Status

  datatype Tally<T> = Tally(ok: T, redirect: T, broken: T, networkError: T, invalidUrl: T, unknown: T) {

    function Get(b: Bucket): T {
      match b
      case OkBucket => ok
      case RedirectBucket => redirect
      case BrokenBucket => broken
      case NetworkErrorBucket => networkError
      case InvalidUrlBucket => invalidUrl
      case UnknownBucket => unknown
    }

    /** Replaces the value of one bucket and keeps the other five. */
    function Set(b: Bucket, v: T): (t: Tally<T>)
      ensures t.Get(b) == v
      ensures forall c :: c != b ==> t.Get(c) == Get(c)
    {
      match b
      case OkBucket => this.(ok := v)
      case RedirectBucket => this.(redirect := v)
      case BrokenBucket => this.(broken := v)
      case NetworkErrorBucket => this.(networkError := v)
      case InvalidUrlBucket => this.(invalidUrl := v)
      case UnknownBucket => this.(unknown := v)
    }
  }

  /** Zero counts, as the page starts. */
  const NoCounts: Tally<nat> := Tally(0, 0, 0, 0, 0, 0)

  /** Empty URL lists, as the page starts. */
  const NoUrls: Tally<seq<string>> := Tally([], [], [], [], [], [])

  function Total(t: Tally<nat>): nat {
    t.ok + t.redirect + t.broken + t.networkError + t.invalidUrl + t.unknown
  }

  /** Number of URLs across all six lists. */
  function TotalLength(t: Tally<seq<string>>): nat {
    |t.ok| + |t.redirect| + |t.broken| + |t.networkError| + |t.invalidUrl| + |t.unknown|
  }

  /** The consistency the page keeps: each count is the length of its list. */
  predicate CountsMatch(counts: Tally<nat>, urls: Tally<seq<string>>) {
    forall b :: counts.Get(b) == |urls.Get(b)|
  }

  /** Two tallies that agree on every bucket are equal. */
  lemma TallyExtensional<T>(t: Tally<T>, u: Tally<T>)
    requires forall b :: t.Get(b) == u.Get(b)
    ensures t == u
  {
    assert t.Get(OkBucket) == u.Get(OkBucket);
    assert t.Get(RedirectBucket) == u.Get(RedirectBucket);
    assert t.Get(BrokenBucket) == u.Get(BrokenBucket);
    assert t.Get(NetworkErrorBucket) == u.Get(NetworkErrorBucket);
    assert t.Get(InvalidUrlBucket) == u.Get(InvalidUrlBucket);
    assert t.Get(UnknownBucket) == u.Get(UnknownBucket);
  }

  /** Bumping one bucket raises the total by one. */
  lemma TotalAfterIncrement(t: Tally<nat>, b: Bucket)
    ensures Total(t.Set(b, t.Get(b) + 1)) == Total(t) + 1
  {
  }

  /** Consistent counts add up to the number of stored URLs. */
  lemma TotalOfMatchingCounts(counts: Tally<nat>, urls: Tally<seq<string>>)
    requires CountsMatch(counts, urls)
    ensures Total(counts) == TotalLength(urls)
  {
    assert counts.Get(OkBucket) == |urls.Get(OkBucket)|;
    assert counts.Get(RedirectBucket) == |urls.Get(RedirectBucket)|;
    assert counts.Get(BrokenBucket) == |urls.Get(BrokenBucket)|;
    assert counts.Get(NetworkErrorBucket) == |urls.Get(NetworkErrorBucket)|;
    assert counts.Get(InvalidUrlBucket) == |urls.Get(InvalidUrlBucket)|;
    assert counts.Get(UnknownBucket) == |urls.Get(UnknownBucket)|;
  }
}

=== FILE: url.dfy ===
/** The WHATWG URL parser (`new URL(href)`) is not modelled: it is a parameter,
    a partial function from a string to its protocol and normalised `href`. */
module Url {
  import opened Options

  datatype ParsedUrl = ParsedUrl(protocol: string, href: string)

  /** `None` stands for the constructor throwing. */
  type Parser = string -> Option<ParsedUrl>

  predicate IsHttpProtocol(protocol: string) {
    protocol == "http:" || protocol == "https:"
  }

  /** Both scripts accept a string exactly when it parses to an http(s) URL. */
  predicate Accepts(parse: Parser, s: string) {
    parse(s).Some? && IsHttpProtocol(parse(s).value.protocol)
  }

  /** The page script's validation: the normalised `href` of an accepted link. */
  function Validate(parse: Parser, href: string): (r: Option<string>)
    ensures r.Some? <==> Accepts(parse, href)
    ensures r.Some? ==> r.value == parse(href).value.href
  {
    match parse(href)
    case None => None
    case Some(u) => if IsHttpProtocol(u.protocol) then Some(u.href) else None
  }

  /** Assumption about the parser used by the composed results: parsing a
      normalised `href` again succeeds and yields the same protocol. */
  ghost predicate ReparseKeepsProtocol(parse: Parser) {
    forall s :: parse(s).Some? ==>
      parse(parse(s).value.href).Some? &&
      parse(parse(s).value.href).value.protocol == parse(s).value.protocol
  }

  /** Under that assumption a validated URL is accepted again. */
  lemma ValidatedIsAccepted(parse: Parser, href: string)
    requires ReparseKeepsProtocol(parse)
    ensures Validate(parse, href).Some? ==> Accepts(parse, Validate(parse, href).value)
  {
  }
}
